=== FILE: README.md ===
# Pyodide kernel output layer, modelled in Dafny

The Pyodide kernel of the VS Code Datalayer extension runs Python inside the
browser and reports everything the code produces to a host through callbacks.
This project models the two pieces of `webview/services/pyodide/pyodide_kernel.py` that do that work.

- `json_clean` is the recursive normaliser that makes any Python value safe
  to encode as JSON. It fails with a `ValueError` when two dict keys share
  their `str()` form. Bytes become `binascii.b2a_base64` text, which uses
  the standard alphabet with `=` padding from section 4 of RFC 4648, plus a
  trailing line feed.
- The output adapters are `LiteStream`, `LiteDisplayPublisher`,
  `LiteInteractiveShell._showtraceback` and `LiteDisplayHook`.
  - `LiteStream.write` with a stream callback reads the global slot
    `builtins._current_msg_id`: it calls the callback when an id is set and
    otherwise sends nothing. Without a callback it does not read the slot
    and forwards the text to the original stream.
  - `publish`, `clear_output`, `_showtraceback` and `finish_displayhook`
    check their callback and the slot, then either call one host callback
    or drop the output. `publish` reads the slot first; the other three
    test their callback first.
  - `start_displayhook` and `write_format_data` read no slot and call no
    callback. They only reset or fill the hook's `data` and `metadata`.

Modules:

- `Wrappers` (wrappers.dfy): `Option` and `Result`.
- `Base64` (base64.dfy): the encoder behind `b2a_base64`, and a decoder,
  the encoder's inverse.
- `PyValues` (pyvalues.dfy): Python values as a finite tree, and the parts
  of `str()`/`repr()` the cleaner relies on.
- `JsonClean` (json_clean.dfy): `json_clean`, the JSON-safe predicate,
  and the lemmas about them.
- `Kernel` (kernel.dfy): the adapter state as one immutable record. Every
  adapter method is a pure transition on it. A call to a host callback is an
  event appended to the record's log.
- `Session` (session.dfy): the engine's sequence of calls, and lemmas
  about whole runs.
- `Scenarios` (scenarios.dfy): concrete calls with their exact outcomes.

Python's `str()` is spelled out for strings, booleans, `None`, ints and
non-finite floats. For every other value (finite floats, bytes, containers,
arbitrary objects) it comes from a parameter `strOf`. The collision check
only needs equality of these strings. The model's `str()` of an int never
fails; CPython's limit on the digits of an int-to-string conversion is not
modelled (see "## Left out").

Routing details of the code that the model keeps exactly:

- `LiteStream.write` with a stream callback sends nothing when no msg id is
  set (webview/services/pyodide/pyodide_kernel.py:109-111).
- `publish` passes `data` on without `json_clean` (webview/services/pyodide/pyodide_kernel.py:157-160).
- `publish(update=True)` with no update callback falls through the `elif`
  to the display callback (webview/services/pyodide/pyodide_kernel.py:157-160).
- In `_showtraceback`, the `"Error"` fallback name cannot be reached,
  because the guard already requires `etype` to be set. The model always
  uses the type's name (webview/services/pyodide/pyodide_kernel.py:190-194).

## Model

| member | source | states |
|---|---|---|
| JsonClean.Clean | webview/services/pyodide/pyodide_kernel.py:26-80 | `json_clean` itself; its contract states that a value with no dict anywhere inside always cleans, because only the dict branch raises; its other properties are the lemmas CleanScalarRules, CleanListLike, CleanDict and CleanIsJsonSafe |
| PyValues.Str | webview/services/pyodide/pyodide_kernel.py:67-80 | Python's `str()` as used by the collision guard, the key conversion and the fallback; no contract of its own, it is spelled out for str, bool, None, int and non-finite floats and taken from `strOf` otherwise |
| Base64.B2aBase64 | webview/services/pyodide/pyodide_kernel.py:52-54 | `b2a_base64(obj)`; no contract of its own, its properties are B2aBase64Spec and DecodeEncode |
| JsonClean.CleanScalarRules | webview/services/pyodide/pyodide_kernel.py:37-54 | a bool result comes only from a bool and is that bool (never 0/1); an int result only from an integral value, with the same value; a float result only from a finite real, unchanged; NaN/inf become their repr; None and str come back unchanged; bytes become b2a_base64 text; any other object becomes its str() |
| JsonClean.CleanScalarSucceeds | webview/services/pyodide/pyodide_kernel.py:37-54 | every non-container, non-dict value is cleaned without error |
| JsonClean.CleanBytes | webview/services/pyodide/pyodide_kernel.py:52-54 | bytes become text of length 4*ceil(n/3)+1 whose last character is a line feed, whose other characters are base64 alphabet or padding, and which decodes back to the bytes |
| JsonClean.CleanListLike | webview/services/pyodide/pyodide_kernel.py:56-62 | tuples, sets, iterators and lists become a list of the same length and order, each element the cleaning of the original; it fails exactly when some element fails |
| JsonClean.CleanItemsPointwise | webview/services/pyodide/pyodide_kernel.py:61-62 | the list comprehension succeeds iff every element cleans, and then element i of the result is the cleaning of element i |
| JsonClean.CollidesIff | webview/services/pyodide/pyodide_kernel.py:66-68 | the length comparison detects a collision exactly when two different entries have keys with equal str() |
| JsonClean.CleanDict | webview/services/pyodide/pyodide_kernel.py:64-77 | a key collision gives the collision error whatever the values; otherwise the dict fails iff a value fails, and else has the same number of entries, in order, with key str(k) and value json_clean(v) |
| JsonClean.CleanEntriesPointwise | webview/services/pyodide/pyodide_kernel.py:74-77 | the entry loop succeeds iff every value cleans, and then entry i is (str(k_i), json_clean(v_i)) |
| JsonClean.CleanIsJsonSafe | webview/services/pyodide/pyodide_kernel.py:26-80 | every successful result is JSON-safe: null, bool, int, finite float, str, list of such, or a dict with distinct string keys and such values |
| JsonClean.CleanFixesJsonSafe | webview/services/pyodide/pyodide_kernel.py:26-80 | a JSON-safe value is returned unchanged |
| JsonClean.CleanIdempotent | webview/services/pyodide/pyodide_kernel.py:26-80 | cleaning a cleaned value gives the same result |
| Base64.DecodeEncode | webview/services/pyodide/pyodide_kernel.py:52-54 | the base64 encoding used for bytes loses nothing: decoding it gives back the bytes |
| Base64.EncodeShape | webview/services/pyodide/pyodide_kernel.py:52-54 | the encoding has 4 characters per started 3-byte group, all alphabet or padding |
| Base64.B2aBase64Spec | webview/services/pyodide/pyodide_kernel.py:52-54 | b2a_base64 text is the encoding followed by one line feed, of length 4*ceil(n/3)+1, and decodes back to the bytes |
| Kernel.Write | webview/services/pyodide/pyodide_kernel.py:104-117 | returns len(text); with a callback it sends one stream event (msg id, stream, text) if a msg id is set and nothing otherwise; without one the text goes to the original stream (if it has write) and never to the log |
| Kernel.Flush | webview/services/pyodide/pyodide_kernel.py:119-120 | flushing changes no state |
| Kernel.IsATTY | webview/services/pyodide/pyodide_kernel.py:122-123 | the stream never reports a terminal |
| Kernel.Publish | webview/services/pyodide/pyodide_kernel.py:140-160 | at most one event and nothing else changes; an event is sent iff a msg id is set and (update with an update callback, or a display callback); it is an update exactly when update is set and the update callback exists; data, metadata and transient are passed on unchanged |
| Kernel.ClearOutput | webview/services/pyodide/pyodide_kernel.py:162-169 | at most one event; it is sent iff the clear callback is set and a msg id is set, and carries (msg id, wait) |
| Kernel.ShowTraceback | webview/services/pyodide/pyodide_kernel.py:179-197 | at most one event and nothing else changes; an error event is sent iff the error callback, the msg id and etype are all set; it carries the type name, str(evalue) or "" without a value, and stb verbatim |
| Kernel.StartDisplayhook | webview/services/pyodide/pyodide_kernel.py:209-211 | data and metadata become empty dicts; nothing else changes |
| Kernel.EncodeImages | webview/services/pyodide/pyodide_kernel.py:83-89 | the format dict is passed through unchanged |
| Kernel.WriteFormatData | webview/services/pyodide/pyodide_kernel.py:216-223 | raises exactly when cleaning the format dict raises; otherwise data is json_clean(format_dict) and metadata is md_dict or {}, replacing the old ones; nothing else changes |
| Kernel.FinishDisplayhook | webview/services/pyodide/pyodide_kernel.py:225-238 | one result event (msg id, prompt_count, data, metadata) iff the result callback and a msg id are set, else none; data and metadata are empty afterwards in both cases; streams, slot and callbacks untouched |
| Session.Apply | webview/services/pyodide/pyodide_kernel.py:104-238 | only write_format_data can raise; every adapter call keeps the log as a prefix, adds at most one event, and that event carries the msg id active at the call |
| Session.Run | webview/services/pyodide/pyodide_kernel.py:104-238 | the engine's sequence of adapter calls, stopping at the first call that raises; it returns the state reached, the error and the number of calls that completed; it raises exactly when it stops short, and the call it stopped at is a write_format_data that raises that same error from the state reached; further properties are RunAppendsAttributedEvents, NoRequestNoEvents, FormatDataOverwrites and DisplayHookCycle |
| Session.RunAppendsAttributedEvents | webview/services/pyodide/pyodide_kernel.py:104-238 | for every run, including one stopped by a raise, the log only grows, by at most one event per completed call, and each new event carries a msg id the global slot held while the completed calls ran; an id that only a call after the raise would have set is never used |
| Session.NoRequestNoEvents | webview/services/pyodide/pyodide_kernel.py:104-238 | for every run, including one stopped by a raise: with no msg id set at the start and none set by a call that completes, no event is sent |
| Session.FormatDataOverwrites | webview/services/pyodide/pyodide_kernel.py:216-223 | after a successful write_format_data, a second one raises exactly when it would alone; if it does not raise it replaces data and metadata completely, so only the last one before finish matters; if it raises, the first one's data and metadata stay; the pair completes one call more than the second alone |
| Session.DisplayHookCycle | webview/services/pyodide/pyodide_kernel.py:209-238 | start, write_format_data, finish raises iff cleaning raises, and then stops after the start (one completed call) with nothing sent; otherwise it sends one result with the cleaned data and md_dict or {} when the callback and msg id are set, none otherwise, and ends with empty data and metadata |
| Scenarios.CleanScalarExamples | webview/services/pyodide/pyodide_kernel.py:37-62 | True stays True; (1, 2, 3) becomes [1, 2, 3]; b"AB" becomes "QUI=\n"; NaN becomes "nan" |
| Scenarios.CleanCollisionExample | webview/services/pyodide/pyodide_kernel.py:64-72 | {1: "a", "1": "b"} raises the collision error |
| Scenarios.CleanNestedExample | webview/services/pyodide/pyodide_kernel.py:56-77 | {"x": [1, (2, 3), {"y": None}]} becomes {"x": [1, [2, 3], {"y": None}]} |
| Scenarios.WriteExamples | webview/services/pyodide/pyodide_kernel.py:104-117 | write("hi") returns 2; with a callback and no msg id nothing is sent; without a callback "hi" reaches the original stream |
| Scenarios.PublishUpdateFallsThrough | webview/services/pyodide/pyodide_kernel.py:157-160 | an update with no update callback is delivered to the display callback |
| Scenarios.SilentExamples | webview/services/pyodide/pyodide_kernel.py:179-238 | finish with no msg id sends nothing and leaves empty data; _showtraceback(None, None, []) sends nothing |
| Scenarios.PrintThenRaise | webview/services/pyodide/pyodide_kernel.py:104-197 | a request that prints "out1" and raises ValueError("boom") yields exactly the stream event and then the error event, both under its id |
| Scenarios.PrintThenCollide | webview/services/pyodide/pyodide_kernel.py:104-223 | a request that prints "out1" and then records a format dict with colliding keys raises the collision error after three completed calls, and the stream event already sent stays in the log |
| Scenarios.CollideStopsRun | webview/services/pyodide/pyodide_kernel.py:64-72 | after a colliding format dict raises, the later calls never run: one call completed, the slot still holds "req-1", not the "req-2" a later call would set, and the later write sends nothing |

## Left out

- IPython's `DisplayHook`, `DisplayPublisher` and `InteractiveShell` base classes are foreign library code. So are their `super().__init__` calls and the empty `write_output_prompt`.
- The module-level construction of the streams and shell, and the replacement of `sys.stdout`/`sys.stderr` (lines 241-251), are process set-up.
- The original Pyodide stream's own `write` is modelled only as appending to the stream's `fallback` sequence.
- The stream's constant `encoding = "utf-8"` attribute is not modelled. No modelled operation reads it.
- The callbacks' bodies run on the host. A call to one is an appended event.
- `prompt_count` is owned and incremented by IPython. It is an input field of the state.
- Python's `str()` text for finite floats, bytes, containers and arbitrary objects is the parameter `strOf`, not spelled out.
- The `repr` of a non-finite value is that of the built-in `float` (`nan`, `inf`, `-inf`). Other `numbers.Real` types may print differently.
- Floating point is not modelled. A real is a finite real number or NaN/+inf/-inf. `float(obj)` on a non-float real (a `Fraction`, say) is taken to be exact, with no rounding.
- Generators and iterators are modelled as the finite sequence they yield. Their laziness and side effects are not modelled.
- Cyclic containers are not modelled. Values are finite trees. On a cyclic container the source's recursion (lines 62 and 76) ends in `RecursionError`.
- PyValues.Str: CPython (3.11 and later, so every current Pyodide) refuses to convert an int of more than 4300 digits to text and raises `ValueError`. The model's `str()` of an int always succeeds. So for a dict with such a key, `json_clean` raises at the key check (lines 66 and 75) while the model's `Clean` succeeds.
- JsonClean.Clean: `math.isnan`, `math.isinf` and `float()` on a non-float real too large for a float (`Fraction(10**400)`, say) raise `OverflowError` (lines 44-46). The model's `Clean` returns the real unchanged instead.
- `RecursionError` is not modelled. Python raises it once the recursion of `json_clean` passes the interpreter's recursion limit, also on finite values nested deeply enough. For those values the model's `Clean` succeeds.
- Python's dict-key equality (`1 == True == 1.0`) is not modelled. A dict is the sequence of its entries as given, and the collision guard compares their count with the number of distinct `str()` forms, as the source does.
- Subclasses of `str`, `list`, `dict` and the number types are not distinguished from the base types.
- `publish`'s `source` and `**kwargs` are not modelled. The source ignores them.
- `md_dict` is taken to be a dict or `None`, as its annotation says. `md_dict or {}` therefore replaces only `None` and the empty dict.
- Kernel.ShowTraceback: `etype` is given as its `__name__` and `evalue` as its `str()`. An exception value is always truthy, so `""` is used only when there is no value.

=== FILE: base64.dfy ===
/** Python's `binascii.b2a_base64` with its default `newline=True`: the
    standard base64 alphabet with `=` padding of section 4 of RFC 4648,
    followed by a single line feed. A decoder for the same alphabet is the
    encoder's inverse: decoding the encoding gives back the bytes. */
module Base64 {
  import opened Wrappers

  type byte = x: int | 0 <= x < 256
  type sextet = x: int | 0 <= x < 64

  /** The character at position `i` of the alphabet
      `A`-`Z`, `a`-`z`, `0`-`9`, `+`, `/` (Table 1 of RFC 4648). */
  function Char(i: sextet): char {
    if i < 26 then ('A' as int + i) as char
    else if i < 52 then ('a' as int + (i - 26)) as char
    else if i < 62 then ('0' as int + (i - 52)) as char
    else if i == 62 then '+'
    else '/'
  }

  predicate IsAlphabetChar(c: char) {
    ('A' <= c <= 'Z') || ('a' <= c <= 'z') || ('0' <= c <= '9') || c == '+' || c == '/'
  }

  /** The alphabet position of an alphabet character: the inverse of `Char`. */
  function Index(c: char): (i: sextet)
    requires IsAlphabetChar(c)
    ensures Char(i) == c
  {
    if 'A' <= c <= 'Z' then c as int - 'A' as int
    else if 'a' <= c <= 'z' then c as int - 'a' as int + 26
    else if '0' <= c <= '9' then c as int - '0' as int + 52
    else if c == '+' then 62
    else 63
  }

  lemma CharIndex(i: sextet)
    ensures IsAlphabetChar(Char(i)) && Index(Char(i)) == i
  {
  }

  /** A character that can appear in an encoding: alphabet or padding. */
  predicate IsEncodingChar(c: char) {
    IsAlphabetChar(c) || c == '='
  }

  /** Three bytes become four alphabet characters, six bits each, most
      significant bits first. */
  function EncodeTriple(b0: byte, b1: byte, b2: byte): string {
    [Char(b0 / 4), Char((b0 % 4) * 16 + b1 / 16), Char((b1 % 16) * 4 + b2 / 64), Char(b2 % 64)]
  }

  /** The base64 text of `bs`, without line feed: whole groups of three bytes,
      then one padded group for a final one or two bytes. */
  function Encode(bs: seq<byte>): (s: string)
    decreases |bs|
  {
    if |bs| == 0 then []
    else if |bs| == 1 then [Char(bs[0] / 4), Char((bs[0] % 4) * 16), '=', '=']
    else if |bs| == 2 then [Char(bs[0] / 4), Char((bs[0] % 4) * 16 + bs[1] / 16), Char((bs[1] % 16) * 4), '=']
    else EncodeTriple(bs[0], bs[1], bs[2]) + Encode(bs[3..])
  }

  /** The bytes of one four-character group, or `None` when the group is not
      a valid final or non-final group. Padding leaves the unused low bits zero. */
  function DecodeQuad(q: string): Option<seq<byte>>
    requires |q| == 4
  {
    if IsAlphabetChar(q[0]) && IsAlphabetChar(q[1]) && IsAlphabetChar(q[2]) && IsAlphabetChar(q[3]) then
      var i0, i1, i2, i3 := Index(q[0]), Index(q[1]), Index(q[2]), Index(q[3]);
      Some([i0 * 4 + i1 / 16, (i1 % 16) * 16 + i2 / 4, (i2 % 4) * 64 + i3])
    else if IsAlphabetChar(q[0]) && IsAlphabetChar(q[1]) && q[2] == '=' && q[3] == '=' && Index(q[1]) % 16 == 0 then
      Some([Index(q[0]) * 4 + Index(q[1]) / 16])
    else if IsAlphabetChar(q[0]) && IsAlphabetChar(q[1]) && IsAlphabetChar(q[2]) && q[3] == '=' && Index(q[2]) % 4 == 0 then
      var i0, i1, i2 := Index(q[0]), Index(q[1]), Index(q[2]);
      Some([i0 * 4 + i1 / 16, (i1 % 16) * 16 + i2 / 4])
    else
      None
  }

  /** Strict decoding of padded base64 text (no line feed): padding may only
      appear in the last group. */
  function Decode(s: string): Option<seq<byte>>
    decreases |s|
  {
    if |s| == 0 then Some([])
    else if |s| < 4 then None
    else
      match DecodeQuad(s[..4])
      case None => None
      case Some(g) =>
        if |g| < 3 && |s| > 4 then None
        else
          match Decode(s[4..])
          case None => None
          case Some(rest) => Some(g + rest)
  }

  /** `binascii.b2a_base64(bs)` with the default trailing newline. */
  function B2aBase64(bs: seq<byte>): string {
    Encode(bs) + "\n"
  }

  lemma DecodeEncodeTriple(b0: byte, b1: byte, b2: byte)
    ensures DecodeQuad(EncodeTriple(b0, b1, b2)) == Some([b0, b1, b2])
  {
    var i0, i1, i2, i3 := b0 / 4, (b0 % 4) * 16 + b1 / 16, (b1 % 16) * 4 + b2 / 64, b2 % 64;
    var q := EncodeTriple(b0, b1, b2);
    CharIndex(i0);
    CharIndex(i1);
    CharIndex(i2);
    CharIndex(i3);
    assert Index(q[0]) == i0 && Index(q[1]) == i1 && Index(q[2]) == i2 && Index(q[3]) == i3;
    assert i0 * 4 + i1 / 16 == b0;
    assert (i1 % 16) * 16 + i2 / 4 == b1;
    assert (i2 % 4) * 64 + i3 == b2;
  }

  lemma DecodeEncodeTail1(b0: byte)
    ensures DecodeQuad([Char(b0 / 4), Char((b0 % 4) * 16), '=', '=']) == Some([b0])
  {
    CharIndex(b0 / 4);
    CharIndex((b0 % 4) * 16);
  }

  lemma DecodeEncodeTail2(b0: byte, b1: byte)
    ensures DecodeQuad([Char(b0 / 4), Char((b0 % 4) * 16 + b1 / 16), Char((b1 % 16) * 4), '=']) == Some([b0, b1])
  {
    CharIndex(b0 / 4);
    CharIndex((b0 % 4) * 16 + b1 / 16);
    CharIndex((b1 % 16) * 4);
  }

  /** A complete group in front of more text decodes to its three bytes
      followed by the decoding of the rest. */
  lemma DecodeCons(q: string, rest: string, g: seq<byte>)
    requires |q| == 4 && DecodeQuad(q) == Some(g) && |g| == 3
    ensures Decode(q + rest) == (match Decode(rest) case None => None case Some(r) => Some(g + r))
  {
    var s := q + rest;
    assert s[..4] == q;
    assert s[4..] == rest;
  }

  /** The encoding of three or more bytes is a full group followed by the
      encoding of the rest. */
  lemma EncodeStep(bs: seq<byte>)
    requires |bs| >= 3
    ensures Encode(bs) == EncodeTriple(bs[0], bs[1], bs[2]) + Encode(bs[3..])
  {
  }

  /** A single group decodes as that group alone. */
  lemma DecodeOne(q: string)
    requires |q| == 4
    ensures Decode(q) == DecodeQuad(q)
  {
    assert q[..4] == q;
    assert q[4..] == [];
    if DecodeQuad(q).Some? {
      assert DecodeQuad(q).value + [] == DecodeQuad(q).value;
    }
  }

  /** The final padded group of one byte decodes back to it. */
  lemma DecodeEncodeOne(b0: byte)
    ensures Decode(Encode([b0])) == Some([b0])
  {
    var q := [Char(b0 / 4), Char((b0 % 4) * 16), '=', '='];
    assert Encode([b0]) == q;
    DecodeOne(q);
    DecodeEncodeTail1(b0);
  }

  /** The final padded group of two bytes decodes back to them. */
  lemma DecodeEncodeTwo(b0: byte, b1: byte)
    ensures Decode(Encode([b0, b1])) == Some([b0, b1])
  {
    var q := [Char(b0 / 4), Char((b0 % 4) * 16 + b1 / 16), Char((b1 % 16) * 4), '='];
    assert Encode([b0, b1]) == q;
    DecodeOne(q);
    DecodeEncodeTail2(b0, b1);
  }

  /** Decoding undoes encoding (so the encoding loses no information). */
  lemma {:induction false} DecodeEncode(bs: seq<byte>)
    ensures Decode(Encode(bs)) == Some(bs)
    decreases |bs|
  {
    if |bs| == 0 {
    } else if |bs| == 1 {
      DecodeEncodeOne(bs[0]);
      assert [bs[0]] == bs;
    } else if |bs| == 2 {
      DecodeEncodeTwo(bs[0], bs[1]);
      assert [bs[0], bs[1]] == bs;
    } else {
      var t := EncodeTriple(bs[0], bs[1], bs[2]);
      EncodeStep(bs);
      DecodeEncodeTriple(bs[0], bs[1], bs[2]);
      DecodeEncode(bs[3..]);
      DecodeCons(t, Encode(bs[3..]), [bs[0], bs[1], bs[2]]);
      assert [bs[0], bs[1], bs[2]] + bs[3..] == bs;
    }
  }

  /** The final padded group of one or two bytes is four encoding characters. */
  lemma EncodeShapeShort(bs: seq<byte>)
    requires 0 < |bs| <= 2
    ensures |Encode(bs)| == 4
    ensures forall i :: 0 <= i < 4 ==> IsEncodingChar(Encode(bs)[i])
  {
    CharIndex(bs[0] / 4);
    CharIndex((bs[0] % 4) * 16);
    if |bs| == 2 {
      CharIndex((bs[0] % 4) * 16 + bs[1] / 16);
      CharIndex((bs[1] % 16) * 4);
    }
  }

  /** A full group is four alphabet characters. */
  lemma EncodeTripleShape(b0: byte, b1: byte, b2: byte)
    ensures |EncodeTriple(b0, b1, b2)| == 4
    ensures forall i :: 0 <= i < 4 ==> IsAlphabetChar(EncodeTriple(b0, b1, b2)[i])
  {
    CharIndex(b0 / 4);
    CharIndex((b0 % 4) * 16 + b1 / 16);
    CharIndex((b1 % 16) * 4 + b2 / 64);
    CharIndex(b2 % 64);
  }

  /** Every group of three bytes, complete or not, yields four characters,
      all from the alphabet or padding. */
  lemma {:induction false} EncodeShape(bs: seq<byte>)
    ensures |Encode(bs)| == 4 * ((|bs| + 2) / 3)
    ensures forall i :: 0 <= i < |Encode(bs)| ==> IsEncodingChar(Encode(bs)[i])
    decreases |bs|
  {
    if |bs| == 0 {
    } else if |bs| <= 2 {
      EncodeShapeShort(bs);
      assert (|bs| + 2) / 3 == 1;
    } else {
      EncodeShape(bs[3..]);
      assert (|bs| + 2) / 3 == (|bs[3..]| + 2) / 3 + 1;
      var t := EncodeTriple(bs[0], bs[1], bs[2]);
      EncodeTripleShape(bs[0], bs[1], bs[2]);
      EncodeStep(bs);
      var s := Encode(bs);
      forall i | 0 <= i < |s|
        ensures IsEncodingChar(s[i])
      {
        if i >= 4 {
          assert s[i] == Encode(bs[3..])[i - 4];
        } else {
          assert s[i] == t[i];
        }
      }
    }
  }

  /** The text `json_clean` produces for a bytes value: ASCII base64 of length
      4 * ceil(n / 3), then a line feed, and it decodes back to the bytes. */
  lemma B2aBase64Spec(bs: seq<byte>)
    ensures var s := B2aBase64(bs);
      && |s| == 4 * ((|bs| + 2) / 3) + 1
      && s[|s| - 1] == '\n'
      && (forall i :: 0 <= i < |s| - 1 ==> IsEncodingChar(s[i]))
      && Decode(s[..|s| - 1]) == Some(bs)
  {
    var s := B2aBase64(bs);
    EncodeShape(bs);
    DecodeEncode(bs);
    assert s[..|s| - 1] == Encode(bs);
    forall i | 0 <= i < |s| - 1
      ensures IsEncodingChar(s[i])
    {
      assert s[i] == Encode(bs)[i];
    }
  }
}

=== FILE: json_clean.dfy ===
/** `json_clean`: the recursive normaliser that turns any Python value into
    one the JSON encoder accepts, or fails with the key-collision error. */
module JsonClean {
  import opened Wrappers
  import opened Base64
  import opened PyValues

  /** The `ValueError` raised when two dict keys share their `str()` form. */
  datatype CleanError = KeyCollision

  /** The values JSON can carry: null, booleans, ints, finite floats,
      strings, lists of such values and dicts whose keys are distinct
      strings and whose values are such values. */
  predicate JsonSafe(v: PyValue) {
    match v
    case PNone => true
    case PBool(_) => true
    case PInt(_) => true
    case PFloat(f) => f.Finite?
    case PStr(_) => true
    case PList(xs) => forall x | x in xs :: JsonSafe(x)
    case PDict(es) =>
      && (forall e | e in es :: e.0.PStr? && JsonSafe(e.1))
      && Distinct(Keys(es))
    case _ => false
  }

  /** The keys of a dict's entries, in order. */
  function Keys(es: seq<(PyValue, PyValue)>): (ks: seq<PyValue>)
    ensures |ks| == |es|
    ensures forall i :: 0 <= i < |es| ==> ks[i] == es[i].0
  {
    seq(|es|, i requires 0 <= i < |es| => es[i].0)
  }

  /** Whether a dict occurs anywhere in `v`: the only place `json_clean`
      can raise. */
  predicate ContainsDict(v: PyValue) {
    match v
    case PDict(_) => true
    case PTuple(xs) => exists x | x in xs :: ContainsDict(x)
    case PSet(xs) => exists x | x in xs :: ContainsDict(x)
    case PIterator(xs) => exists x | x in xs :: ContainsDict(x)
    case PList(xs) => exists x | x in xs :: ContainsDict(x)
    case _ => false
  }

  predicate Distinct<T(==)>(s: seq<T>) {
    forall i, j | 0 <= i < j < |s| :: s[i] != s[j]
  }

  function ToSet<T>(s: seq<T>): set<T> {
    set x | x in s
  }

  /** `map(str, d)`: the `str()` form of every key, in order. */
  function KeyStrs(strOf: StrOf, es: seq<(PyValue, PyValue)>): (ks: seq<string>)
    ensures |ks| == |es|
    ensures forall i :: 0 <= i < |es| ==> ks[i] == Str(strOf, es[i].0)
  {
    seq(|es|, i requires 0 <= i < |es| => Str(strOf, es[i].0))
  }

  /** The guard `len(obj) != len(set(map(str, obj)))`. */
  predicate Collides(strOf: StrOf, es: seq<(PyValue, PyValue)>) {
    |es| != |ToSet(KeyStrs(strOf, es))|
  }

  /** `json_clean(obj)`. The order of the rules is the source's: a bool is
      caught before the integral rule, bytes before the container rule. */
  function Clean(strOf: StrOf, v: PyValue): (r: Result<PyValue, CleanError>)
    ensures !ContainsDict(v) ==> r.Success?
    decreases v, 3
  {
    match v
    case PBool(_) => Success(v)
    case PInt(i) => Success(PInt(i))
    case PFloat(f) => if f.Finite? then Success(PFloat(f)) else Success(PStr(FloatRepr(f)))
    case PNone => Success(v)
    case PStr(_) => Success(v)
    case PBytes(bs) => Success(PStr(B2aBase64(bs)))
    case PTuple(xs) => CleanList(strOf, xs)
    case PSet(xs) => CleanList(strOf, xs)
    case PIterator(xs) => CleanList(strOf, xs)
    case PList(xs) => CleanList(strOf, xs)
    case PDict(es) =>
      if Collides(strOf, es) then Failure(KeyCollision)
      else
        var out :- CleanEntries(strOf, es);
        Success(PDict(out))
    case PObject(_) => Success(PStr(Str(strOf, v)))
  }

  /** `[json_clean(x) for x in obj]` as a Python list. */
  function CleanList(strOf: StrOf, xs: seq<PyValue>): (r: Result<PyValue, CleanError>)
    ensures (forall x | x in xs :: !ContainsDict(x)) ==> r.Success?
    decreases xs, 2
  {
    var ys :- CleanItems(strOf, xs);
    Success(PList(ys))
  }

  /** The comprehension `[json_clean(x) for x in obj]`: the first failure
      propagates, leaving no partial list. */
  function CleanItems(strOf: StrOf, xs: seq<PyValue>): (r: Result<seq<PyValue>, CleanError>)
    ensures r.Success? ==> |r.value| == |xs|
    ensures (forall x | x in xs :: !ContainsDict(x)) ==> r.Success?
    decreases xs, 0
  {
    if |xs| == 0 then Success([])
    else
      var y :- Clean(strOf, xs[0]);
      var ys :- CleanItems(strOf, xs[1..]);
      Success([y] + ys)
  }

  /** One step of that loop: the entry `(str(k), json_clean(v))`. */
  function CleanEntry(strOf: StrOf, e: (PyValue, PyValue)): Result<(PyValue, PyValue), CleanError>
    decreases e, 1
  {
    var w :- Clean(strOf, e.1);
    Success((PStr(Str(strOf, e.0)), w))
  }

  /** The loop `out[str(k)] = json_clean(v)` over the entries in order. */
  function CleanEntries(strOf: StrOf, es: seq<(PyValue, PyValue)>): (r: Result<seq<(PyValue, PyValue)>, CleanError>)
    ensures r.Success? ==> |r.value| == |es|
    decreases es, 0
  {
    if |es| == 0 then Success([])
    else
      var e :- CleanEntry(strOf, es[0]);
      var rest :- CleanEntries(strOf, es[1..]);
      Success([e] + rest)
  }

  /* ---- the collision guard ---- */

  /** A sequence has as many distinct elements as positions exactly when no
      element repeats. */
  lemma {:induction false} ToSetCard<T>(s: seq<T>)
    ensures |ToSet(s)| <= |s|
    ensures |ToSet(s)| == |s| <==> Distinct(s)
  {
    if |s| > 0 {
      var t := s[1..];
      ToSetCard(t);
      assert ToSet(s) == {s[0]} + ToSet(t);
      if s[0] in t {
        assert ToSet(s) == ToSet(t);
        var k :| 0 <= k < |t| && t[k] == s[0];
        assert s[0] == s[k + 1];
        assert !Distinct(s);
      } else {
        assert |ToSet(s)| == |ToSet(t)| + 1;
        if Distinct(t) {
          forall i, j | 0 <= i < j < |s|
            ensures s[i] != s[j]
          {
            if i == 0 {
              assert s[j] == t[j - 1];
            } else {
              assert s[i] == t[i - 1] && s[j] == t[j - 1];
            }
          }
        } else {
          var i, j :| 0 <= i < j < |t| && t[i] == t[j];
          assert s[i + 1] == s[j + 1];
        }
      }
    }
  }

  /** The length comparison fails exactly when two different entries have
      keys with the same `str()` form. */
  lemma CollidesIff(strOf: StrOf, es: seq<(PyValue, PyValue)>)
    ensures Collides(strOf, es) <==>
      exists i, j :: 0 <= i < j < |es| && Str(strOf, es[i].0) == Str(strOf, es[j].0)
  {
    var ks := KeyStrs(strOf, es);
    ToSetCard(ks);
    if !Distinct(ks) {
      var i, j :| 0 <= i < j < |ks| && ks[i] == ks[j];
      assert Str(strOf, es[i].0) == Str(strOf, es[j].0);
    }
  }

  /* ---- element-wise rules for lists and dicts ---- */

  /** Cleaning a sequence succeeds exactly when every element cleans, and
      then gives each element's cleaned value at the same position. */
  lemma {:induction false} CleanItemsPointwise(strOf: StrOf, xs: seq<PyValue>)
    ensures CleanItems(strOf, xs).Success? <==>
      forall i :: 0 <= i < |xs| ==> Clean(strOf, xs[i]).Success?
    ensures CleanItems(strOf, xs).Success? ==>
      forall i :: 0 <= i < |xs| ==> Clean(strOf, xs[i]) == Success(CleanItems(strOf, xs).value[i])
  {
    if |xs| > 0 {
      CleanItemsPointwise(strOf, xs[1..]);
      if Clean(strOf, xs[0]).Success? && !CleanItems(strOf, xs[1..]).Success? {
        var k :| 0 <= k < |xs| - 1 && !Clean(strOf, xs[1..][k]).Success?;
        assert xs[1..][k] == xs[k + 1];
      }
      if CleanItems(strOf, xs).Success? {
        var ys := CleanItems(strOf, xs).value;
        forall i | 0 <= i < |xs|
          ensures Clean(strOf, xs[i]) == Success(ys[i])
        {
          if i > 0 {
            assert xs[i] == xs[1..][i - 1];
          }
        }
      }
    }
  }

  /** Cleaning the entries succeeds exactly when every value cleans, and
      then keeps the order: entry `i` becomes `(str(k_i), json_clean(v_i))`. */
  lemma {:induction false} CleanEntriesPointwise(strOf: StrOf, es: seq<(PyValue, PyValue)>)
    ensures CleanEntries(strOf, es).Success? <==>
      forall i :: 0 <= i < |es| ==> Clean(strOf, es[i].1).Success?
    ensures CleanEntries(strOf, es).Success? ==>
      forall i :: 0 <= i < |es| ==>
        && CleanEntries(strOf, es).value[i].0 == PStr(Str(strOf, es[i].0))
        && Clean(strOf, es[i].1) == Success(CleanEntries(strOf, es).value[i].1)
  {
    if |es| > 0 {
      CleanEntriesPointwise(strOf, es[1..]);
      if Clean(strOf, es[0].1).Success? && !CleanEntries(strOf, es[1..]).Success? {
        var k :| 0 <= k < |es| - 1 && !Clean(strOf, es[1..][k].1).Success?;
        assert es[1..][k] == es[k + 1];
      }
      if CleanEntries(strOf, es).Success? {
        var out := CleanEntries(strOf, es).value;
        forall i | 0 <= i < |es|
          ensures out[i].0 == PStr(Str(strOf, es[i].0))
          ensures Clean(strOf, es[i].1) == Success(out[i].1)
        {
          if i == 0 {
            assert out[0] == CleanEntry(strOf, es[0]).value;
          } else {
            assert es[i] == es[1..][i - 1];
          }
        }
      }
    }
  }

  predicate IsListLike(v: PyValue) {
    v.PTuple? || v.PSet? || v.PIterator? || v.PList?
  }

  /** Tuples, sets, iterators and lists all become a list of the same
      length, in the same order, each element cleaned; the first element
      that fails makes the whole value fail. */
  lemma CleanListLike(strOf: StrOf, v: PyValue)
    requires IsListLike(v)
    ensures Clean(strOf, v).Success? <==>
      forall i :: 0 <= i < |v.items| ==> Clean(strOf, v.items[i]).Success?
    ensures Clean(strOf, v).Success? ==>
      && Clean(strOf, v).value.PList?
      && |Clean(strOf, v).value.items| == |v.items|
      && forall i :: 0 <= i < |v.items| ==> Clean(strOf, v.items[i]) == Success(Clean(strOf, v).value.items[i])
  {
    CleanItemsPointwise(strOf, v.items);
  }

  /** A dict fails with the collision error when two of its keys share a
      `str()` form, whatever its values; otherwise it fails exactly when a
      value fails, and else keeps every entry, in order, under key
      `str(k)` with value `json_clean(v)`. */
  lemma CleanDict(strOf: StrOf, es: seq<(PyValue, PyValue)>)
    ensures (exists i, j :: 0 <= i < j < |es| && Str(strOf, es[i].0) == Str(strOf, es[j].0)) ==>
      Clean(strOf, PDict(es)) == Failure(KeyCollision)
    ensures Clean(strOf, PDict(es)).Success? <==>
      && (forall i, j :: 0 <= i < j < |es| ==> Str(strOf, es[i].0) != Str(strOf, es[j].0))
      && (forall i :: 0 <= i < |es| ==> Clean(strOf, es[i].1).Success?)
    ensures Clean(strOf, PDict(es)).Success? ==>
      && Clean(strOf, PDict(es)).value.PDict?
      && |Clean(strOf, PDict(es)).value.entries| == |es|
      && forall i :: 0 <= i < |es| ==>
        && Clean(strOf, PDict(es)).value.entries[i].0 == PStr(Str(strOf, es[i].0))
        && Clean(strOf, es[i].1) == Success(Clean(strOf, PDict(es)).value.entries[i].1)
  {
    CollidesIff(strOf, es);
    CleanEntriesPointwise(strOf, es);
  }

  /* ---- scalar rules ---- */

  /** Every value that is not a container or a dict cleans successfully. */
  lemma CleanScalarSucceeds(strOf: StrOf, v: PyValue)
    requires !IsListLike(v) && !v.PDict?
    ensures Clean(strOf, v).Success?
  {
  }

  /** What each kind of value becomes. A bool stays the same bool and only a
      bool yields a bool (it is never read as the int 0 or 1); only an
      integral value yields an int, with the same value; only a finite float
      yields a float, unchanged; NaN and the infinities become their `repr`;
      `None` and strings are returned as they are; bytes become their
      `b2a_base64` text; any other object becomes its `str()`. */
  lemma CleanScalarRules(strOf: StrOf, v: PyValue, w: PyValue)
    requires Clean(strOf, v) == Success(w)
    ensures w.PBool? <==> v.PBool?
    ensures w.PInt? <==> v.PInt?
    ensures w.PFloat? <==> v.PFloat? && v.f.Finite?
    ensures w.PNone? <==> v.PNone?
    ensures w.PList? <==> IsListLike(v)
    ensures w.PDict? <==> v.PDict?
    ensures v.PBool? || v.PInt? || v.PNone? || v.PStr? || (v.PFloat? && v.f.Finite?) ==> w == v
    ensures v.PFloat? && !v.f.Finite? ==> w == PStr(FloatRepr(v.f))
    ensures v.PBytes? ==> w == PStr(B2aBase64(v.bytes))
    ensures v.PObject? ==> w == PStr(strOf(v))
  {
  }

  /** A bytes value becomes ASCII base64 text of length 4 * ceil(n / 3)
      plus the trailing line feed, from which the bytes can be recovered. */
  lemma CleanBytes(strOf: StrOf, bs: seq<byte>)
    ensures Clean(strOf, PBytes(bs)).Success? && Clean(strOf, PBytes(bs)).value.PStr?
    ensures var t := Clean(strOf, PBytes(bs)).value.s;
      && |t| == 4 * ((|bs| + 2) / 3) + 1
      && t[|t| - 1] == '\n'
      && (forall i :: 0 <= i < |t| - 1 ==> IsEncodingChar(t[i]))
      && Decode(t[..|t| - 1]) == Some(bs)
  {
    B2aBase64Spec(bs);
  }

  /* ---- JSON safety and the fixed point ---- */

  /** Whatever `json_clean` returns is JSON-safe. */
  lemma {:induction false} CleanIsJsonSafe(strOf: StrOf, v: PyValue)
    requires Clean(strOf, v).Success?
    ensures JsonSafe(Clean(strOf, v).value)
    decreases v, 1
  {
    match v
    case PTuple(xs) => CleanItemsAreJsonSafe(strOf, v, xs);
    case PSet(xs) => CleanItemsAreJsonSafe(strOf, v, xs);
    case PIterator(xs) => CleanItemsAreJsonSafe(strOf, v, xs);
    case PList(xs) => CleanItemsAreJsonSafe(strOf, v, xs);
    case PDict(es) =>
      CleanDict(strOf, es);
      var out := Clean(strOf, v).value.entries;
      forall i | 0 <= i < |es|
        ensures JsonSafe(out[i].1)
      {
        CleanEntryIsJsonSafe(strOf, es[i]);
      }
      forall i, j | 0 <= i < j < |out|
        ensures out[i].0 != out[j].0
      {
        assert Str(strOf, es[i].0) != Str(strOf, es[j].0);
      }
    case _ =>
  }

  lemma {:induction false} CleanItemsAreJsonSafe(strOf: StrOf, v: PyValue, xs: seq<PyValue>)
    requires IsListLike(v) && xs == v.items
    requires Clean(strOf, v).Success?
    ensures JsonSafe(Clean(strOf, v).value)
    decreases xs, 0
  {
    CleanListLike(strOf, v);
    var ys := Clean(strOf, v).value.items;
    forall i | 0 <= i < |xs|
      ensures JsonSafe(ys[i])
    {
      CleanIsJsonSafe(strOf, xs[i]);
    }
  }

  lemma {:induction false} CleanEntryIsJsonSafe(strOf: StrOf, e: (PyValue, PyValue))
    requires Clean(strOf, e.1).Success?
    ensures JsonSafe(Clean(strOf, e.1).value)
    decreases e, 0
  {
    CleanIsJsonSafe(strOf, e.1);
  }

  /** A value that is already JSON-safe is its own cleaning. */
  lemma {:induction false} CleanFixesJsonSafe(strOf: StrOf, v: PyValue)
    requires JsonSafe(v)
    ensures Clean(strOf, v) == Success(v)
    decreases v, 1
  {
    match v
    case PList(xs) =>
      forall i | 0 <= i < |xs|
        ensures Clean(strOf, xs[i]) == Success(xs[i])
      {
        assert xs[i] in xs;
        CleanFixesJsonSafe(strOf, xs[i]);
      }
      CleanListLike(strOf, v);
      assert Clean(strOf, v).value.items == xs;
    case PDict(es) =>
      forall i | 0 <= i < |es|
        ensures Clean(strOf, es[i].1) == Success(es[i].1)
        ensures Str(strOf, es[i].0) == es[i].0.s
      {
        assert es[i] in es;
        CleanEntryIsFixed(strOf, es[i]);
      }
      CleanDict(strOf, es);
      var out := Clean(strOf, v).value.entries;
      assert forall i :: 0 <= i < |es| ==> out[i] == es[i];
      assert out == es;
    case _ =>
  }

  lemma {:induction false} CleanEntryIsFixed(strOf: StrOf, e: (PyValue, PyValue))
    requires e.0.PStr? && JsonSafe(e.1)
    ensures Clean(strOf, e.1) == Success(e.1)
    ensures Str(strOf, e.0) == e.0.s
    decreases e, 0
  {
    CleanFixesJsonSafe(strOf, e.1);
  }

  /** Cleaning twice is cleaning once. */
  lemma CleanIdempotent(strOf: StrOf, v: PyValue)
    requires Clean(strOf, v).Success?
    ensures Clean(strOf, Clean(strOf, v).value) == Clean(strOf, v)
  {
    CleanIsJsonSafe(strOf, v);
    CleanFixesJsonSafe(strOf, Clean(strOf, v).value);
  }
}

=== FILE: kernel.dfy ===
/** The output adapters of the Pyodide kernel: `LiteStream`,
    `LiteDisplayPublisher`, `LiteInteractiveShell._showtraceback` and
    `LiteDisplayHook`. `write` with a stream callback, `publish`,
    `clear_output`, `_showtraceback` and `finish_displayhook` check their
    callback and the one global slot `builtins._current_msg_id` (`publish`
    reads the slot first, the others test their callback first), then
    either hand exactly one event to a host callback or drop it. `write` without a stream callback
    reads no slot and forwards the text to the original stream.
    `start_displayhook` and `write_format_data` only reset or fill the
    hook's `data` and `metadata`; `flush` and `isatty` change nothing. The
    kernel is one immutable record and every method is a pure transition on
    it; a call to a host callback is an event appended to `log`. */
module Kernel {
  import opened Wrappers
  import opened PyValues
  import opened JsonClean

  /** The id of the request whose code is running. */
  type MsgId = string

  datatype StreamName = Stdout | Stderr

  /** One call of a host callback, with the arguments it received. */
  datatype Event =
    | StreamEvent(msgId: MsgId, name: StreamName, text: string)
    | DisplayEvent(msgId: MsgId, data: PyValue, metadata: Option<PyValue>, transient: Option<PyValue>)
    | UpdateDisplayEvent(msgId: MsgId, data: PyValue, metadata: Option<PyValue>, transient: Option<PyValue>)
    | ClearOutputEvent(msgId: MsgId, wait: bool)
    | ErrorEvent(msgId: MsgId, ename: string, evalue: string, traceback: seq<string>)
    | ExecutionResultEvent(msgId: MsgId, executionCount: int, data: PyValue, resultMetadata: PyValue)

  /** A `LiteStream`: whether `publish_stream_callback` is set, whether the
      original Pyodide stream it falls back to has a `write`, and the texts
      that stream has received. */
  datatype LiteStream = LiteStream(hasCallback: bool, originalHasWrite: bool, fallback: seq<string>)

  /** Which of the host callbacks are set (a callback that is set is truthy). */
  datatype Callbacks = Callbacks(
    clearOutput: bool,
    updateDisplayData: bool,
    displayData: bool,
    error: bool,
    executionResult: bool)

  /** The whole adapter state: the global msg id slot, the two streams, the
      callbacks, the display hook's `prompt_count` (owned by IPython), its
      `data` and `metadata`, and the log of callback calls. */
  datatype KernelState = KernelState(
    currentMsgId: Option<MsgId>,
    stdout: LiteStream,
    stderr: LiteStream,
    callbacks: Callbacks,
    promptCount: int,
    data: PyValue,
    metadata: PyValue,
    log: seq<Event>)
  {
    function Stream(name: StreamName): LiteStream {
      match name
      case Stdout => stdout
      case Stderr => stderr
    }

    function WithStream(name: StreamName, s: LiteStream): KernelState {
      match name
      case Stdout => this.(stdout := s)
      case Stderr => this.(stderr := s)
    }
  }

  const EmptyDict: PyValue := PDict([])

  /** `k2` is `k` with one more event at the end of the log. */
  predicate Emits(k: KernelState, k2: KernelState, e: Event) {
    k2 == k.(log := k.log + [e])
  }

  /** `k2` is `k` itself, or `k` with one more event and nothing else changed. */
  predicate AtMostOneEvent(k: KernelState, k2: KernelState) {
    k2 == k || (|k2.log| == |k.log| + 1 && Emits(k, k2, k2.log[|k.log|]))
  }

  /* ---- LiteStream ---- */

  /** `LiteStream.write(text)`: with a stream callback, one stream event for
      the active request, or nothing when no request is active; without
      one, the text goes to the original stream if that has a `write`. The
      count returned is always the length of the text. */
  function Write(k: KernelState, name: StreamName, text: string): (r: (KernelState, int))
    ensures r.1 == |text|
    ensures k.Stream(name).hasCallback && k.currentMsgId.Some? ==>
      Emits(k, r.0, StreamEvent(k.currentMsgId.value, name, text))
    ensures k.Stream(name).hasCallback && k.currentMsgId.None? ==> r.0 == k
    ensures !k.Stream(name).hasCallback ==>
      r.0 == k.WithStream(name, k.Stream(name).(fallback :=
        k.Stream(name).fallback + (if k.Stream(name).originalHasWrite then [text] else [])))
  {
    var s := k.Stream(name);
    var k2 :=
      if s.hasCallback then
        match k.currentMsgId
        case Some(id) => k.(log := k.log + [StreamEvent(id, name, text)])
        case None => k
      else if s.originalHasWrite then
        k.WithStream(name, s.(fallback := s.fallback + [text]))
      else
        k;
    (k2, if |text| > 0 then |text| else 0)
  }

  /** `LiteStream.flush()`: every write is already delivered, so there is
      nothing to do. */
  function Flush(k: KernelState, name: StreamName): (r: KernelState)
    ensures r == k
  {
    k
  }

  /** `LiteStream.isatty()`. */
  function IsATTY(s: LiteStream): (r: bool)
    ensures !r
  {
    false
  }

  /* ---- LiteDisplayPublisher ---- */

  /** `publish(data, metadata, transient=..., update=...)`. Nothing without an
      active request. An update goes to the update callback when that is
      set; every other call, including an update with no update callback,
      goes to the display callback if that is set. The arguments are passed
      on as given (`data` is not cleaned). */
  function Publish(k: KernelState, data: PyValue, metadata: Option<PyValue>,
                   transient: Option<PyValue>, update: bool): (r: KernelState)
    ensures AtMostOneEvent(k, r)
    ensures r != k <==>
      k.currentMsgId.Some? && ((update && k.callbacks.updateDisplayData) || k.callbacks.displayData)
    ensures r != k ==>
      var e := r.log[|k.log|];
      && e.msgId == k.currentMsgId.value
      && (e.UpdateDisplayEvent? <==> update && k.callbacks.updateDisplayData)
      && (e.DisplayEvent? || e.UpdateDisplayEvent?)
      && e.data == data && e.metadata == metadata && e.transient == transient
  {
    match k.currentMsgId
    case None => k
    case Some(id) =>
      if update && k.callbacks.updateDisplayData then
        k.(log := k.log + [UpdateDisplayEvent(id, data, metadata, transient)])
      else if k.callbacks.displayData then
        k.(log := k.log + [DisplayEvent(id, data, metadata, transient)])
      else
        k
  }

  /** `clear_output(wait)`: one clear event carrying `wait`, only when the
      clear callback is set and a request is active. */
  function ClearOutput(k: KernelState, wait: bool): (r: KernelState)
    ensures AtMostOneEvent(k, r)
    ensures r != k <==> k.callbacks.clearOutput && k.currentMsgId.Some?
    ensures r != k ==> r.log[|k.log|] == ClearOutputEvent(k.currentMsgId.value, wait)
  {
    if k.callbacks.clearOutput then
      match k.currentMsgId
      case Some(id) => k.(log := k.log + [ClearOutputEvent(id, wait)])
      case None => k
    else
      k
  }

  /* ---- LiteInteractiveShell ---- */

  /** `_showtraceback(etype, evalue, stb)`. `etype` is the exception type's
      `__name__`, or `None`; `evalue` is `str()` of the exception, or `None`
      when there is no exception value. One error event, only when the
      error callback is set, a request is active and there is a type; it
      carries the name, the message (empty without a value) and `stb`
      exactly as given. */
  function ShowTraceback(k: KernelState, etype: Option<string>, evalue: Option<string>,
                         stb: seq<string>): (r: KernelState)
    ensures AtMostOneEvent(k, r)
    ensures r != k <==> k.callbacks.error && k.currentMsgId.Some? && etype.Some?
    ensures r != k ==>
      var e := r.log[|k.log|];
      && e.ErrorEvent?
      && e.msgId == k.currentMsgId.value
      && e.ename == etype.value
      && (evalue.None? ==> e.evalue == "")
      && (evalue.Some? ==> e.evalue == evalue.value)
      && e.traceback == stb
  {
    if k.callbacks.error then
      match (k.currentMsgId, etype)
      case (Some(id), Some(name)) =>
        k.(log := k.log + [ErrorEvent(id, name, evalue.GetOr(""), stb)])
      case _ => k
    else
      k
  }

  /* ---- LiteDisplayHook ---- */

  /** `start_displayhook()`: empties `data` and `metadata`. */
  function StartDisplayhook(k: KernelState): (r: KernelState)
    ensures r.data == EmptyDict && r.metadata == EmptyDict
    ensures r.(data := k.data, metadata := k.metadata) == k
  {
    k.(data := EmptyDict, metadata := EmptyDict)
  }

  /** `encode_images(format_dict)`: bytes are already handled by the
      cleaner, so the dict is passed on as it is. */
  function EncodeImages(formatDict: seq<(PyValue, PyValue)>): (r: seq<(PyValue, PyValue)>)
    ensures r == formatDict
  {
    formatDict
  }

  /** `write_format_data(format_dict, md_dict)`: `data` becomes the cleaned
      format dict and `metadata` becomes `md_dict or {}`, both replacing
      what was there. A key collision raises and leaves the state as it was. */
  function WriteFormatData(strOf: StrOf, k: KernelState, formatDict: seq<(PyValue, PyValue)>,
                           mdDict: Option<seq<(PyValue, PyValue)>>): (r: Result<KernelState, CleanError>)
    ensures r.Failure? <==> Clean(strOf, PDict(formatDict)).Failure?
    ensures r.Success? ==>
      && r.value.data == Clean(strOf, PDict(formatDict)).value
      && r.value.metadata == PDict(mdDict.GetOr([]))
      && r.value.(data := k.data, metadata := k.metadata) == k
  {
    var cleaned :- Clean(strOf, PDict(EncodeImages(formatDict)));
    Success(k.(data := cleaned, metadata := PDict(mdDict.GetOr([]))))
  }

  /** `finish_displayhook()`: flushes both streams, sends one execution
      result `(msg id, prompt_count, data, metadata)` only when the result
      callback is set and a request is active, and then empties `data` and
      `metadata` whether or not it sent anything. */
  function FinishDisplayhook(k: KernelState): (r: KernelState)
    ensures r.data == EmptyDict && r.metadata == EmptyDict
    ensures r.stdout == k.stdout && r.stderr == k.stderr
    ensures r.currentMsgId == k.currentMsgId && r.callbacks == k.callbacks && r.promptCount == k.promptCount
    ensures k.callbacks.executionResult && k.currentMsgId.Some? ==>
      r.log == k.log + [ExecutionResultEvent(k.currentMsgId.value, k.promptCount, k.data, k.metadata)]
    ensures !(k.callbacks.executionResult && k.currentMsgId.Some?) ==> r.log == k.log
  {
    var k1 := Flush(Flush(k, Stdout), Stderr);
    var k2 :=
      if k1.callbacks.executionResult then
        match k1.currentMsgId
        case Some(id) => k1.(log := k1.log + [ExecutionResultEvent(id, k1.promptCount, k1.data, k1.metadata)])
        case None => k1
      else
        k1;
    k2.(data := EmptyDict, metadata := EmptyDict)
  }
}

=== FILE: pyvalues.dfy ===
/** The Python values `json_clean` distinguishes, as a finite tree, and the
    parts of Python's `str()` and `repr()` the cleaner relies on. */
module PyValues {
  import opened Base64

  /** A `numbers.Real` that is not `numbers.Integral` (a `float`, say): either
      a finite number or one of the three non-finite IEEE values. */
  datatype Float = Finite(value: real) | NaN | PosInf | NegInf

  /** One Python value. Dict entries are kept in insertion order; a set's
      elements in its iteration order; a generator or other iterator
      (anything with `__iter__` and `__next__`) as the finite sequence it
      yields. `PObject` is any other object, known only by identity. */
  datatype PyValue =
    | PNone
    | PBool(b: bool)
    | PInt(i: int)
    | PFloat(f: Float)
    | PStr(s: string)
    | PBytes(bytes: seq<byte>)
    | PTuple(items: seq<PyValue>)
    | PSet(items: seq<PyValue>)
    | PIterator(items: seq<PyValue>)
    | PList(items: seq<PyValue>)
    | PDict(entries: seq<(PyValue, PyValue)>)
    | PObject(id: nat)

  /** Python's `str()` for the values whose text the model does not spell
      out: finite floats, bytes, containers and arbitrary objects. */
  type StrOf = PyValue -> string

  /** `repr()` of a non-finite built-in float. */
  function FloatRepr(f: Float): string
    requires !f.Finite?
  {
    match f
    case NaN => "nan"
    case PosInf => "inf"
    case NegInf => "-inf"
  }

  function DigitChar(d: int): char
    requires 0 <= d < 10
  {
    ('0' as int + d) as char
  }

  function NatToDecimal(n: nat): (s: string)
    ensures |s| > 0
  {
    if n < 10 then [DigitChar(n)] else NatToDecimal(n / 10) + [DigitChar(n % 10)]
  }

  /** `str()` of a Python int: decimal digits, with `-` for negatives. */
  function IntToDecimal(i: int): string {
    if i < 0 then "-" + NatToDecimal(-i) else NatToDecimal(i)
  }

  /** Python's `str(v)`: spelled out for strings, booleans, `None`, ints and
      non-finite floats; taken from `strOf` for every other value. */
  function Str(strOf: StrOf, v: PyValue): string {
    match v
    case PStr(s) => s
    case PBool(b) => if b then "True" else "False"
    case PNone => "None"
    case PInt(i) => IntToDecimal(i)
    case PFloat(f) => if f.Finite? then strOf(v) else FloatRepr(f)
    case _ => strOf(v)
  }
}

=== FILE: scenarios.dfy ===
/** Concrete calls of the cleaner and the adapters, each stated with the
    exact outcome the source produces. */
module Scenarios {
  import opened Wrappers
  import opened PyValues
  import opened JsonClean
  import opened Kernel
  import opened Session

  /** `json_clean(True)` is `True`, not `1`; `json_clean((1, 2, 3))` is
      `[1, 2, 3]`; `json_clean(b"AB")` is `"QUI=\n"`;
      `json_clean(float("nan"))` is `"nan"`. */
  lemma CleanScalarExamples(strOf: StrOf)
    ensures Clean(strOf, PBool(true)) == Success(PBool(true))
    ensures Clean(strOf, PTuple([PInt(1), PInt(2), PInt(3)])) == Success(PList([PInt(1), PInt(2), PInt(3)]))
    ensures Clean(strOf, PBytes([65, 66])) == Success(PStr("QUI=\n"))
    ensures Clean(strOf, PFloat(NaN)) == Success(PStr("nan"))
  {
    var t := PTuple([PInt(1), PInt(2), PInt(3)]);
    CleanListLike(strOf, t);
    assert Clean(strOf, t).value.items == [PInt(1), PInt(2), PInt(3)];
    assert Base64.Char(16) == 'Q' && Base64.Char(20) == 'U' && Base64.Char(8) == 'I';
    assert Base64.Encode([65, 66]) == "QUI=";
    assert Base64.B2aBase64([65, 66]) == "QUI=\n";
  }

  /** `json_clean({1: "a", "1": "b"})` raises: both keys print as `1`. */
  lemma CleanCollisionExample(strOf: StrOf)
    ensures Clean(strOf, PDict([(PInt(1), PStr("a")), (PStr("1"), PStr("b"))])) == Failure(KeyCollision)
  {
    var es := [(PInt(1), PStr("a")), (PStr("1"), PStr("b"))];
    assert Str(strOf, es[0].0) == "1" == Str(strOf, es[1].0);
    CleanDict(strOf, es);
  }

  lemma CleanPairExample(strOf: StrOf)
    ensures Clean(strOf, PTuple([PInt(2), PInt(3)])) == Success(PList([PInt(2), PInt(3)]))
  {
    var pair := PTuple([PInt(2), PInt(3)]);
    CleanListLike(strOf, pair);
    var ys := Clean(strOf, pair).value.items;
    assert ys[0] == PInt(2) && ys[1] == PInt(3);
    assert ys == [PInt(2), PInt(3)];
  }

  lemma CleanInnerListExample(strOf: StrOf)
    ensures Clean(strOf, PList([PInt(1), PTuple([PInt(2), PInt(3)]), PDict([(PStr("y"), PNone)])]))
         == Success(PList([PInt(1), PList([PInt(2), PInt(3)]), PDict([(PStr("y"), PNone)])]))
  {
    var inner := PDict([(PStr("y"), PNone)]);
    assert JsonSafe(inner);
    CleanFixesJsonSafe(strOf, inner);
    CleanPairExample(strOf);
    var list := PList([PInt(1), PTuple([PInt(2), PInt(3)]), inner]);
    CleanListLike(strOf, list);
    var ys := Clean(strOf, list).value.items;
    assert Clean(strOf, list.items[1]) == Success(ys[1]);
    assert Clean(strOf, list.items[2]) == Success(ys[2]);
    assert ys == [PInt(1), PList([PInt(2), PInt(3)]), inner];
  }

  /** `json_clean({"x": [1, (2, 3), {"y": None}]})` is
      `{"x": [1, [2, 3], {"y": None}]}`. */
  lemma CleanNestedExample(strOf: StrOf)
    ensures Clean(strOf, PDict([(PStr("x"), PList([PInt(1), PTuple([PInt(2), PInt(3)]), PDict([(PStr("y"), PNone)])]))]))
         == Success(PDict([(PStr("x"), PList([PInt(1), PList([PInt(2), PInt(3)]), PDict([(PStr("y"), PNone)])]))]))
  {
    CleanInnerListExample(strOf);
    var es := [(PStr("x"), PList([PInt(1), PTuple([PInt(2), PInt(3)]), PDict([(PStr("y"), PNone)])]))];
    CleanDict(strOf, es);
    var out := Clean(strOf, PDict(es)).value.entries;
    assert out == [(PStr("x"), PList([PInt(1), PList([PInt(2), PInt(3)]), PDict([(PStr("y"), PNone)])]))];
  }

  const AllCallbacks := Callbacks(true, true, true, true, true)
  const CallbackStream := LiteStream(true, true, [])

  function Initial(callbacks: Callbacks, stream: LiteStream): KernelState {
    KernelState(None, stream, stream, callbacks, 1, EmptyDict, EmptyDict, [])
  }

  /** With a stream callback but no active request `write("hi")` sends
      nothing and returns 2; with no stream callback it writes `"hi"` to the
      original stream and returns 2. */
  lemma WriteExamples()
    ensures Write(Initial(AllCallbacks, CallbackStream), Stdout, "hi")
         == (Initial(AllCallbacks, CallbackStream), 2)
    ensures Write(Initial(AllCallbacks, LiteStream(false, true, [])), Stdout, "hi")
         == (Initial(AllCallbacks, LiteStream(false, true, [])).(stdout := LiteStream(false, true, ["hi"])), 2)
  {
    assert [] + ["hi"] == ["hi"];
  }

  /** `publish(data, update=True)` with a display callback and no update
      callback is delivered to the display callback. */
  lemma PublishUpdateFallsThrough(data: PyValue)
    ensures var k := Initial(Callbacks(true, false, true, true, true), CallbackStream).(currentMsgId := Some("req-1"));
      Publish(k, data, None, None, true).log == [DisplayEvent("req-1", data, None, None)]
  {
  }

  /** `finish_displayhook()` with nothing recorded and no active request
      sends nothing; `_showtraceback(None, None, [])` sends nothing. */
  lemma SilentExamples()
    ensures FinishDisplayhook(Initial(AllCallbacks, CallbackStream)) == Initial(AllCallbacks, CallbackStream)
    ensures var k := Initial(AllCallbacks, CallbackStream).(currentMsgId := Some("req-1"));
      ShowTraceback(k, None, None, []) == k
  {
  }

  /** A request that prints and then raises: the host sees the stream text
      and then the error, both under the request's id, and no result. */
  lemma PrintThenRaise(strOf: StrOf)
    ensures var steps := [
        SetMsgId(Some("req-1")),
        WriteText(Stdout, "out1"),
        ShowError(Some("ValueError"), Some("boom"), ["Traceback...", "ValueError: boom"]),
        SetMsgId(None)];
      && Run(strOf, Initial(AllCallbacks, CallbackStream), steps).raised.None?
      && Run(strOf, Initial(AllCallbacks, CallbackStream), steps).state.log == [
        StreamEvent("req-1", Stdout, "out1"),
        ErrorEvent("req-1", "ValueError", "boom", ["Traceback...", "ValueError: boom"])]
  {
  }

  /** A request that prints and then records a format dict whose keys
      collide: the collision error stops the run, and the stream event sent
      before it stays delivered. */
  lemma PrintThenCollide(strOf: StrOf)
    ensures var steps := [
        SetMsgId(Some("req-1")),
        WriteText(Stdout, "out1"),
        StartHook,
        FormatData([(PInt(1), PStr("a")), (PStr("1"), PStr("b"))], None),
        FinishHook];
      && Run(strOf, Initial(AllCallbacks, CallbackStream), steps).raised == Some(KeyCollision)
      && Run(strOf, Initial(AllCallbacks, CallbackStream), steps).ran == 3
      && Run(strOf, Initial(AllCallbacks, CallbackStream), steps).state.log == [StreamEvent("req-1", Stdout, "out1")]
  {
    CleanCollisionExample(strOf);
  }

  /** The calls after a raise never run: a request they would have started
      is never active, and the text they would have written is never sent. */
  lemma CollideStopsRun(strOf: StrOf)
    ensures var steps := [
        SetMsgId(Some("req-1")),
        FormatData([(PInt(1), PStr("a")), (PStr("1"), PStr("b"))], None),
        SetMsgId(Some("req-2")),
        WriteText(Stdout, "late")];
      && Run(strOf, Initial(AllCallbacks, CallbackStream), steps).raised == Some(KeyCollision)
      && Run(strOf, Initial(AllCallbacks, CallbackStream), steps).ran == 1
      && Run(strOf, Initial(AllCallbacks, CallbackStream), steps).state.currentMsgId == Some("req-1")
      && Run(strOf, Initial(AllCallbacks, CallbackStream), steps).state.log == []
  {
    CleanCollisionExample(strOf);
  }
}

=== FILE: session.dfy ===
/** How the engine drives the adapters during a session: it sets and clears
    `builtins._current_msg_id` around each request and, while the request's
    code runs, calls the adapters. A run applies such calls in order and
    stops at the first one that raises. */
module Session {
  import opened Wrappers
  import opened PyValues
  import opened JsonClean
  import opened Kernel

  datatype Step =
    | SetMsgId(id: Option<MsgId>)
    | WriteText(stream: StreamName, text: string)
    | FlushStream(stream: StreamName)
    | PublishDisplay(data: PyValue, metadata: Option<PyValue>, transient: Option<PyValue>, update: bool)
    | ClearDisplay(wait: bool)
    | ShowError(etype: Option<string>, evalue: Option<string>, stb: seq<string>)
    | StartHook
    | FormatData(formatDict: seq<(PyValue, PyValue)>, mdDict: Option<seq<(PyValue, PyValue)>>)
    | FinishHook

  /** One call. Only `write_format_data` can raise (the collision error of
      `json_clean`); every adapter call adds at most one event to the log,
      and that event carries the msg id that was active when it was sent. */
  function Apply(strOf: StrOf, k: KernelState, step: Step): (r: Result<KernelState, CleanError>)
    ensures r.Failure? ==> step.FormatData?
    ensures r.Success? ==> |k.log| <= |r.value.log| <= |k.log| + 1 && r.value.log[..|k.log|] == k.log
    ensures r.Success? && |r.value.log| > |k.log| ==>
      k.currentMsgId.Some? && r.value.log[|k.log|].msgId == k.currentMsgId.value
    ensures r.Success? && !step.SetMsgId? ==> r.value.currentMsgId == k.currentMsgId
    ensures r.Success? && step.SetMsgId? ==> r.value.currentMsgId == step.id
  {
    match step
    case SetMsgId(id) => Success(k.(currentMsgId := id))
    case WriteText(name, text) => Success(Write(k, name, text).0)
    case FlushStream(name) => Success(Flush(k, name))
    case PublishDisplay(data, metadata, transient, update) => Success(Publish(k, data, metadata, transient, update))
    case ClearDisplay(wait) => Success(ClearOutput(k, wait))
    case ShowError(etype, evalue, stb) => Success(ShowTraceback(k, etype, evalue, stb))
    case StartHook => Success(StartDisplayhook(k))
    case FormatData(fd, md) => WriteFormatData(strOf, k, fd, md)
    case FinishHook => Success(FinishDisplayhook(k))
  }

  /** Where a run ends: the state reached, the error raised by the call
      that stopped it, if any, and how many calls ran to completion before
      it. A raise undoes nothing: callbacks called before it stay in the
      log. */
  datatype RunOutcome = RunOutcome(state: KernelState, raised: Option<CleanError>, ran: nat)

  /** The calls in order, stopping at the first one that raises. The call
      that raises changes nothing (`write_format_data` assigns only after
      `json_clean` returns), and the calls after it never run: a run raises
      exactly when it stops short, and then the call it stopped at is a
      `write_format_data` that raises that very error from the state
      reached. */
  function Run(strOf: StrOf, k: KernelState, steps: seq<Step>): (r: RunOutcome)
    ensures r.ran <= |steps|
    ensures r.raised.None? <==> r.ran == |steps|
    ensures r.raised.Some? ==>
      && steps[r.ran].FormatData?
      && Apply(strOf, r.state, steps[r.ran]) == Failure(r.raised.value)
    decreases |steps|
  {
    if |steps| == 0 then RunOutcome(k, None, 0)
    else
      match Apply(strOf, k, steps[0])
      case Failure(e) => RunOutcome(k, Some(e), 0)
      case Success(k1) =>
        var r1 := Run(strOf, k1, steps[1..]);
        assert r1.raised.Some? ==> steps[1..][r1.ran] == steps[r1.ran + 1];
        r1.(ran := r1.ran + 1)
  }

  /** The msg ids the global slot holds at some point while `steps` all run:
      the one it starts with and every id a `SetMsgId` among them sets. */
  function ActiveIds(k: KernelState, steps: seq<Step>): set<MsgId> {
    (if k.currentMsgId.Some? then {k.currentMsgId.value} else {})
    + (set i | 0 <= i < |steps| && steps[i].SetMsgId? && steps[i].id.Some? :: steps[i].id.value)
  }

  /** A call that completes keeps the ids active for the calls after it
      among those active for the whole sequence. */
  lemma ActiveIdsStep(strOf: StrOf, k: KernelState, steps: seq<Step>)
    requires |steps| > 0 && Apply(strOf, k, steps[0]).Success?
    ensures ActiveIds(Apply(strOf, k, steps[0]).value, steps[1..]) <= ActiveIds(k, steps)
  {
    var k1 := Apply(strOf, k, steps[0]).value;
    forall x | x in ActiveIds(k1, steps[1..])
      ensures x in ActiveIds(k, steps)
    {
      if k1.currentMsgId.Some? && x == k1.currentMsgId.value {
        if !steps[0].SetMsgId? {
          assert x in ActiveIds(k, steps);
        } else {
          assert steps[0].id.Some?;
        }
      } else {
        var i :| 0 <= i < |steps[1..]| && steps[1..][i].SetMsgId? && steps[1..][i].id.Some?
                 && steps[1..][i].id.value == x;
        assert steps[i + 1] == steps[1..][i];
      }
    }
  }

  /** A run only appends to the log, at most one event per call that ran,
      and every event it appends is attributed to a msg id the slot held
      while the calls that ran were running: nothing is sent for a request
      that was never active, nor for one a call after a raise would have
      started. */
  lemma {:induction false} RunAppendsAttributedEvents(strOf: StrOf, k: KernelState, steps: seq<Step>)
    ensures var r := Run(strOf, k, steps);
      && |k.log| <= |r.state.log| <= |k.log| + r.ran
      && r.state.log[..|k.log|] == k.log
      && forall i :: |k.log| <= i < |r.state.log| ==>
           r.state.log[i].msgId in ActiveIds(k, steps[..r.ran])
    decreases |steps|
  {
    if |steps| > 0 && Apply(strOf, k, steps[0]).Success? {
      var k1 := Apply(strOf, k, steps[0]).value;
      var r1 := Run(strOf, k1, steps[1..]);
      RunAppendsAttributedEvents(strOf, k1, steps[1..]);
      var r := Run(strOf, k, steps);
      assert r == r1.(ran := r1.ran + 1);
      var ran := steps[..r.ran];
      assert ran[0] == steps[0];
      assert ran[1..] == steps[1..][..r1.ran];
      ActiveIdsStep(strOf, k, ran);
      assert r.state.log[..|k1.log|] == k1.log;
      forall i | |k.log| <= i < |r.state.log|
        ensures r.state.log[i].msgId in ActiveIds(k, ran)
      {
        if i < |k1.log| {
          assert r.state.log[i] == k1.log[i];
        }
      }
    }
  }

  /** With no active request and no request started by a call that runs, a
      run sends nothing. */
  lemma {:induction false} NoRequestNoEvents(strOf: StrOf, k: KernelState, steps: seq<Step>)
    requires k.currentMsgId.None?
    requires forall i :: 0 <= i < Run(strOf, k, steps).ran ==> !(steps[i].SetMsgId? && steps[i].id.Some?)
    ensures Run(strOf, k, steps).state.log == k.log
    decreases |steps|
  {
    if |steps| > 0 && Apply(strOf, k, steps[0]).Success? {
      var k1 := Apply(strOf, k, steps[0]).value;
      var r1 := Run(strOf, k1, steps[1..]);
      assert Run(strOf, k, steps) == r1.(ran := r1.ran + 1);
      assert k1.log == k.log;
      forall i | 0 <= i < r1.ran
        ensures !(steps[1..][i].SetMsgId? && steps[1..][i].id.Some?)
      {
        assert steps[1..][i] == steps[i + 1];
      }
      NoRequestNoEvents(strOf, k1, steps[1..]);
    }
  }

  /** `write_format_data` overwrites: after a first call that succeeds, a
      second call raises exactly when it would have raised alone, and when
      it does not raise it replaces everything the first one stored, so
      only the most recent call before `finish_displayhook` matters. When
      the second call raises, what the first one stored stays. */
  lemma FormatDataOverwrites(strOf: StrOf, k: KernelState,
                             fd1: seq<(PyValue, PyValue)>, md1: Option<seq<(PyValue, PyValue)>>,
                             fd2: seq<(PyValue, PyValue)>, md2: Option<seq<(PyValue, PyValue)>>)
    requires Clean(strOf, PDict(fd1)).Success?
    ensures Run(strOf, k, [FormatData(fd1, md1), FormatData(fd2, md2)]).raised
         == Run(strOf, k, [FormatData(fd2, md2)]).raised
    ensures Run(strOf, k, [FormatData(fd1, md1), FormatData(fd2, md2)]).ran
         == Run(strOf, k, [FormatData(fd2, md2)]).ran + 1
    ensures Run(strOf, k, [FormatData(fd2, md2)]).raised.None? ==>
      Run(strOf, k, [FormatData(fd1, md1), FormatData(fd2, md2)]).state
        == Run(strOf, k, [FormatData(fd2, md2)]).state
    ensures Run(strOf, k, [FormatData(fd2, md2)]).raised.Some? ==>
      Run(strOf, k, [FormatData(fd1, md1), FormatData(fd2, md2)]).state
        == WriteFormatData(strOf, k, fd1, md1).value
  {
    var k1 := WriteFormatData(strOf, k, fd1, md1).value;
    var tail := Run(strOf, k1, [FormatData(fd2, md2)]);
    assert [FormatData(fd1, md1), FormatData(fd2, md2)][1..] == [FormatData(fd2, md2)];
    assert Run(strOf, k, [FormatData(fd1, md1), FormatData(fd2, md2)]) == tail.(ran := tail.ran + 1);
    assert k1.(data := k.data, metadata := k.metadata) == k;
    var r1 := WriteFormatData(strOf, k1, fd2, md2);
    var r2 := WriteFormatData(strOf, k, fd2, md2);
    assert r1.Failure? <==> r2.Failure?;
    if r1.Success? {
      assert r1.value.(data := k.data, metadata := k.metadata) == k;
      assert r1 == r2;
    }
  }

  /** The display hook's cycle for a request's trailing expression: start,
      record the formatted output, finish. It raises exactly when cleaning
      the format dict raises, and then stops with `data` and `metadata`
      emptied by the start and nothing sent. Otherwise it sends exactly one
      execution result, with the cleaned format dict and `md_dict or {}`,
      when the result callback is set and a request is active, and nothing
      otherwise; `data` and `metadata` end empty either way. */
  lemma DisplayHookCycle(strOf: StrOf, k: KernelState,
                         fd: seq<(PyValue, PyValue)>, md: Option<seq<(PyValue, PyValue)>>)
    ensures Run(strOf, k, [StartHook, FormatData(fd, md), FinishHook]).raised.None? <==>
      Clean(strOf, PDict(fd)).Success?
    ensures Run(strOf, k, [StartHook, FormatData(fd, md), FinishHook]).raised.Some? ==>
      && Run(strOf, k, [StartHook, FormatData(fd, md), FinishHook]).raised == Some(KeyCollision)
      && Run(strOf, k, [StartHook, FormatData(fd, md), FinishHook]).ran == 1
      && Run(strOf, k, [StartHook, FormatData(fd, md), FinishHook]).state == StartDisplayhook(k)
    ensures Run(strOf, k, [StartHook, FormatData(fd, md), FinishHook]).raised.None? ==>
      var k2 := Run(strOf, k, [StartHook, FormatData(fd, md), FinishHook]).state;
      && k2.data == EmptyDict && k2.metadata == EmptyDict
      && (k.callbacks.executionResult && k.currentMsgId.Some? ==>
            k2.log == k.log + [ExecutionResultEvent(k.currentMsgId.value, k.promptCount,
                                                    Clean(strOf, PDict(fd)).value, PDict(md.GetOr([])))])
      && (!(k.callbacks.executionResult && k.currentMsgId.Some?) ==> k2.log == k.log)
  {
    var steps := [StartHook, FormatData(fd, md), FinishHook];
    var k0 := StartDisplayhook(k);
    var rest := Run(strOf, k0, steps[1..]);
    assert Run(strOf, k, steps) == rest.(ran := rest.ran + 1);
    var r1 := WriteFormatData(strOf, k0, fd, md);
    assert r1.Failure? ==> rest == RunOutcome(k0, Some(r1.error), 0);
    assert r1.Success? ==> rest.state == Run(strOf, r1.value, [FinishHook]).state;
    if r1.Failure? {
      assert r1.error == KeyCollision;
    }
  }
}

=== FILE: wrappers.dfy ===
/** Failure-compatible wrappers used throughout the model: an optional value
    (Python's `None`-or-value) and a result that either carries a value or
    the error a Python `raise` would have produced. */
module Wrappers {

  datatype Option<+T> = None | Some(value: T) {

    /** The wrapped value, or `default` when there is none (Python's `x or default`
        for a value that is either `None` or truthy). */
    function GetOr(default: T): T {
      match this
      case Some(v) => v
      case None => default
    }
  }

  datatype Result<+R, +E> = Success(value: R) | Failure(error: E) {

    predicate IsFailure() {
      Failure?
    }

    function PropagateFailure<U>(): Result<U, E>
      requires Failure?
    {
      Failure(error)
    }

    function Extract(): R
      requires Success?
    {
      value
    }
  }
}
